=== FILE: README.md ===
# Local reading state of a manga reader, in Dafny

This project models the pure list and string logic of a client-side manga
reading site:

- the **bookmark store** (`src/hooks/use-bookmarks.ts`): a list of bookmarked
  manga keyed by slug, newest first, with idempotent add, remove, membership
  and toggle;
- the **reading-history store** (`src/hooks/use-reading-progress.ts`): one
  entry per manga, moved to the front on every save and capped at 20 entries,
  with remove, clear and lookup, plus the "time ago" label
  `formatRelativeTime`;
- the **latest-updates merge** of the home page (`src/app/page.tsx`): the home
  payload's first page followed by the pages of an infinite query,
  de-duplicated by slug with the first occurrence kept, together with the
  query's page function and next-page rule;
- the **mobile bottom navigation** (`src/components/mobile-bottom-nav.tsx`):
  which item is highlighted for a path, and the rule that hides the bar in the
  chapter reader.

Layout, one module per concern:

| file | module | contents |
|---|---|---|
| `options.dfy` | `Options` | `Option`, used for `null`, `undefined` and absent fields |
| `seqs.dfy` | `Seqs` | generic list helpers: `slice(0, n)` (`Take`) with its laws `TakeCons` and `TakeTake`, reversal, and the sequence facts `ConcatAssociative` and `PrefixSnoc` |
| `keyed.dfy` | `Keyed` | generic key-indexed list logic (`some`, `filter`, `find`, first-occurrence de-duplication, subsequence) and its laws |
| `storage.dfy` | `Storage` | the local-storage slot: absent, blank, unparseable or a parsed list |
| `bookmarks.dfy` | `Bookmarks` | the bookmark store |
| `reading_history.dfy` | `ReadingHistory` | the reading-history store |
| `decimal.dfy` | `Decimal` | decimal text of a whole number, and reading it back |
| `relative_time.dfy` | `RelativeTime` | `formatRelativeTime` and its labels |
| `latest_feed.dfy` | `LatestFeed` | the latest-updates merge and the infinite query's paging |
| `bottom_nav.dfy` | `BottomNav` | the navigation table and the highlight rule |

Storage is abstracted: an operation reads the stored list through
`Storage.Read`, where every unreadable state reads as `[]`. It then computes
the new list with a pure function, and the write stores that list whole.
Each store operation is modelled as a function from the decoded list to the
new list. `Bookmarks.AddBookmarkToSlot` shows the whole read-modify-write on
the slot once: adding an existing bookmark writes nothing in the TypeScript
code, and the model leaves the slot untouched in that case too. The clock (`Date.now()`) is the parameter `now`.
The remote call for a page of latest manga is the parameter `getLatest`.
A manga summary keeps every field of the API's `Manga` record
(src/lib/api.ts:10-20), so when the merge keeps the first record of a slug it
keeps that record whole.

`getNextPageParam` (src/app/page.tsx:38-41) always returns
`lastPage.page + 1` and never `undefined`, so an empty page does not end
pagination: the query never reports that it is exhausted.

## Model

| member | source | states |
|---|---|---|
| `Storage.Read` | src/hooks/use-bookmarks.ts:21-31 | nothing stored, a blank entry or unparseable content reads as the empty list; a parsed list reads as itself |
| `Storage.Write` | src/hooks/use-bookmarks.ts:49 | a written list reads back as itself (`setItem` of `JSON.stringify`, then `JSON.parse`) |
| `Storage.Remove` | src/hooks/use-reading-progress.ts:76 | after `removeItem` the slot reads as the empty list |
| `Bookmarks.IsBookmarked` | src/hooks/use-bookmarks.ts:73-76 | true exactly when some entry's slug equals the given slug |
| `Bookmarks.AddBookmark` | src/hooks/use-bookmarks.ts:36-53 | afterwards the slug is bookmarked; an existing slug leaves the list untouched; a new one becomes the first entry with the old list after it unchanged; membership of every other slug is unchanged |
| `Bookmarks.AddBookmarkToSlot` | src/hooks/use-bookmarks.ts:36-53 | reading the slot, adding and writing back reads as the pure add of the decoded list; an already bookmarked slug leaves the slot untouched (no write); an unreadable slot ends up holding just the new manga |
| `Bookmarks.RemoveBookmark` | src/hooks/use-bookmarks.ts:58-68 | afterwards no entry has the slug; every other slug keeps its membership; the result is the old list minus exactly the entries with that slug, in the original order |
| `Bookmarks.ToggleBookmark` | src/hooks/use-bookmarks.ts:81-89 | returns true exactly when the slug was absent; afterwards the slug is bookmarked exactly when true was returned; other slugs keep their membership; an adding toggle puts the manga in front of the unchanged list; a removing toggle gives the `filter` result, the other entries in their old order |
| `Bookmarks.AddBookmarkIdempotent` | src/hooks/use-bookmarks.ts:42-45 | adding a second time, even another record with the same slug, equals adding once; the first record stays |
| `Bookmarks.RemoveAbsent` | src/hooks/use-bookmarks.ts:63 | removing a slug that is not bookmarked leaves the list unchanged |
| `Bookmarks.ToggleTwiceRestores` | src/hooks/use-bookmarks.ts:81-89 | toggling an absent manga twice gives back the original list exactly, and the second toggle returns false |
| `Bookmarks.AddBookmarkUnique` | src/hooks/use-bookmarks.ts:43-48 | a list with pairwise-distinct slugs keeps them distinct after an add |
| `Bookmarks.RemoveBookmarkUnique` | src/hooks/use-bookmarks.ts:63 | a list with pairwise-distinct slugs keeps them distinct after a remove |
| `Bookmarks.ToggleBookmarkUnique` | src/hooks/use-bookmarks.ts:81-89 | a list with pairwise-distinct slugs keeps them distinct after a toggle |
| `ReadingHistory.SaveReadingProgress` | src/hooks/use-reading-progress.ts:38-54 | the saved entry comes first; exactly one entry has its manga slug; at most 20 entries remain, namely min(20, 1 + the old entries for other manga); the rest are old entries for other manga, in their old order |
| `ReadingHistory.RemoveFromHistory` | src/hooks/use-reading-progress.ts:59-69 | afterwards no entry has the slug; other slugs keep their membership; the result is the old list minus exactly those entries, in order |
| `ReadingHistory.ClearReadingHistory` | src/hooks/use-reading-progress.ts:74-77 | after clearing, the history reads back as the empty list |
| `ReadingHistory.GetMangaProgress` | src/hooks/use-reading-progress.ts:82-85 | returns the first entry with the slug, or none exactly when no entry has it |
| `ReadingHistory.SaveForm` | src/hooks/use-reading-progress.ts:45-48 | a save equals the saved entry followed by the first 19 entries of the old list with that manga's entries filtered out |
| `ReadingHistory.SaveFresh` | src/hooks/use-reading-progress.ts:45-48 | saving a manga not yet in the history puts it in front of the old list; when the list was full the last (oldest) entry is evicted |
| `ReadingHistory.SaveUpsert` | src/hooks/use-reading-progress.ts:45-48 | saving twice for the same manga equals saving only the second value |
| `ReadingHistory.SaveUnique` | src/hooks/use-reading-progress.ts:44-48 | a history with distinct manga slugs keeps them distinct after a save |
| `ReadingHistory.GetAfterSave` | src/hooks/use-reading-progress.ts:48 | after a save, the lookup for that manga returns exactly the saved value |
| `ReadingHistory.GetOtherAfterSave` | src/hooks/use-reading-progress.ts:45-48 | a save leaves the lookup of every other manga unchanged, unless that manga was evicted |
| `ReadingHistory.GetOtherAfterSaveKept` | src/hooks/use-reading-progress.ts:45-48 | when another manga is not evicted (it has no entry, or its first entry among the filtered old list lies within the 19 kept), its lookup after the save is exactly what it was before |
| `ReadingHistory.GetAfterRemove` | src/hooks/use-reading-progress.ts:64 | after removal, the lookup for that manga finds nothing |
| `ReadingHistory.SaveAllDistinct` | src/hooks/use-reading-progress.ts:45-48 | saving distinct manga one after another into an empty history leaves the last 20 saved, newest first |
| `ReadingHistory.SaveAllEvictsOldest` | src/hooks/use-reading-progress.ts:18 | saving more than 20 distinct manga leaves exactly 20 entries, and the earliest saved are gone |
| `RelativeTime.FormatRelativeTime` | src/hooks/use-reading-progress.ts:130-141 | with diff = now - timestamp: under one minute (negative diffs included) is "just now"; up to an hour it is m whole minutes, with m*60000 <= diff < (m+1)*60000 and 1 <= m < 60; likewise hours below 24 and days below 7; a week or more falls back to the calendar date of the timestamp |
| `RelativeTime.ParseLabelRoundTrip` | src/hooks/use-reading-progress.ts:138-141 | every label ("Baru saja", "m menit lalu", "h jam lalu", "d hari lalu") reads back as the bucket it came from |
| `RelativeTime.LabelUnambiguous` | src/hooks/use-reading-progress.ts:138-141 | two buckets with the same label are the same bucket |
| `Decimal.Show` | src/hooks/use-reading-progress.ts:139 | the text of a count is non-empty, all decimal digits, and has no leading zero |
| `RelativeTime.Label` | src/hooks/use-reading-progress.ts:138-141 | every bucket except the calendar date has a text; `ParseLabelRoundTrip` and `ParseLabelExact` together pin that text to "Baru saja" or the count's canonical decimal digits followed by " menit lalu", " jam lalu" or " hari lalu" |
| `RelativeTime.ParseLabelExact` | src/hooks/use-reading-progress.ts:138-141 | every text the label reader accepts (leading zeros refused) is exactly the label of the bucket it reads as, so label and reader are inverse |
| `Decimal.ShowParse` | src/hooks/use-reading-progress.ts:139 | non-empty digit text without a leading zero is the decimal text of its value; with `ParseShow`, the decimal text is the one canonical spelling of a count |
| `Decimal.ParseShow` | src/hooks/use-reading-progress.ts:139 | the decimal text of a count reads back as that count |
| `LatestFeed.FetchLatestPage` | src/app/page.tsx:29-37 | the result carries the requested page number; page 1 is answered with no manga; any other page carries the remote page's manga |
| `LatestFeed.NextPageParam` | src/app/page.tsx:38-41 | the next page parameter always exists and lies beyond the last page, so pagination never reports exhaustion |
| `LatestFeed.QueryPages` | src/app/page.tsx:27-43 | after n fetches the query holds n pages numbered 1 to n, each the page function's answer for its number |
| `LatestFeed.QueryPagesContent` | src/app/page.tsx:29-37 | the query's pages hold exactly the remote pages 2 to n: the first page contributes nothing |
| `LatestFeed.AddUnseen` | src/app/page.tsx:55-60 | one pass of the seen-set loop extends the first-occurrence list of everything visited by the new items, and the seen set by their slugs |
| `LatestFeed.AddPages` | src/app/page.tsx:64-73 | the nested loop over the pages does the same for the pages' manga in page order |
| `LatestFeed.MergeLatest` | src/app/page.tsx:49-76 | the merged list equals the first-occurrence de-duplication of the home manga followed by every page's manga |
| `LatestFeed.AllLatestMangaSpec` | src/app/page.tsx:50-73 | the merged list has pairwise-distinct slugs; it contains exactly the slugs of the input; it is a subsequence of the input; every kept manga is the first input manga with its slug; kept manga appear in the order their slugs first occur in the input |
| `LatestFeed.AllLatestMangaAbsent` | src/app/page.tsx:53-75 | without home data the result is the de-duplication of the pages alone; without both it is empty |
| `LatestFeed.MergeOfQueryPages` | src/app/page.tsx:27-76 | the list shown after n fetches is the de-duplication of the home manga followed by remote pages 2 to n |
| `LatestFeed.MergeExample` | src/app/page.tsx:53-73 | home [a, b] and a later page [b', c] merge to [a, b, c], keeping the first record of b |
| `BottomNav.IsActive` | src/components/mobile-bottom-nav.tsx:30-35 | an item with match paths is active exactly when the path equals one of them or lies below it (that path followed by "/"); an item without is active exactly on its own link |
| `BottomNav.MatchesAny` | src/components/mobile-bottom-nav.tsx:32 | true exactly when the path equals, or lies below, some path of the list |
| `BottomNav.Render` | src/components/mobile-bottom-nav.tsx:21-50 | nothing is drawn exactly for paths starting with "/chapter/"; otherwise each item of the table gets its active flag, in order |
| `BottomNav.RenderExamples` | src/components/mobile-bottom-nav.tsx:25-50 | the bar is hidden on "/chapter/x/1" but drawn on "/chapter" and "/chapters"; on "/search/x" exactly the "Cari" item is active |
| `BottomNav.ActiveExamples` | src/components/mobile-bottom-nav.tsx:15-19 | Home is active on "/" but not on "/search" or "/bookmarks"; "/search/x" activates Cari and "/searchx" does not; likewise for Bookmark |
| `BottomNav.ActiveBelow` | src/components/mobile-bottom-nav.tsx:32 | an active item with match paths stays active on every path below the current one |
| `BottomNav.AtMostOneActive` | src/components/mobile-bottom-nav.tsx:15-19 | for the given table, at most one item is active on any path |

## Left out

- Local storage access, `JSON.parse` and `JSON.stringify` are abstracted into `Storage.Stored`. Text that parses but is not a list of records (for example `null`) is not modelled.
- The `typeof window === 'undefined'` guards, the server-side case where reads give `[]` and writes do nothing, are not modelled.
- Failing writes (`setItem` throwing, for example over quota) are caught and logged in the TypeScript code. The model assumes every write succeeds.
- `console.error` logging is left out: it has no effect on the stored state.
- The React hooks (`useBookmarks`, `useReadingHistory`, `useMemo`, `useQuery`, `useInfiniteQuery`) are state plumbing around the pure operations and are left out. Their loading and error states are left out too.
- RelativeTime.FormatRelativeTime: the week-or-older case returns `CalendarDate(timestamp)` without text, because `toLocaleDateString('id-ID', …)` depends on the locale library. Timestamps are whole milliseconds, whereas JavaScript numbers are doubles.
- The other records of the API client (chapters, details, search results) are not modelled.
- The remote `getLatest` and `getHome` calls are parameters or inputs. Their failures, timeouts and the API client (`src/lib/api.ts`) are left out.
- The "more" menu state and the icons of the bottom navigation are presentational and left out.
- Chapter navigation is not modelled: the reader follows the `prevChapter`/`nextChapter` hints of the API response (src/app/chapter/[...slug]/page.tsx:29-32).
- Cover enhancement, debounce and loader timers, pull-to-refresh, animations and purely presentational components are outside the modelled core.

=== FILE: bookmarks.dfy ===
/** The bookmark store: a list of bookmarked manga keyed by slug, most
    recently added first. */
module Bookmarks {
  import opened Options
  import Keyed
  import Storage

  /** The upstream sites a manga can come from. */
  datatype Source = Kiryuu | Komiku | Softkomik

  datatype Bookmark = Bookmark(
    slug: string,
    title: string,
    cover: string,
    kind: Option<string>,
    rating: Option<string>,
    latestChapter: Option<string>,
    source: Option<Source>,
    addedAt: int)

  function Slug(b: Bookmark): string { b.slug }

  /** True when some entry carries `slug`. */
  function IsBookmarked(bookmarks: seq<Bookmark>, slug: string): (r: bool)
    ensures r <==> exists i :: 0 <= i < |bookmarks| && bookmarks[i].slug == slug
  {
    Keyed.Contains(bookmarks, Slug, slug)
  }

  /** Adds `manga` in front unless its slug is already present. */
  function AddBookmark(bookmarks: seq<Bookmark>, manga: Bookmark): (r: seq<Bookmark>)
    ensures IsBookmarked(r, manga.slug)
    ensures IsBookmarked(bookmarks, manga.slug) ==> r == bookmarks
    ensures !IsBookmarked(bookmarks, manga.slug) ==> |r| == |bookmarks| + 1 && r[0] == manga && r[1..] == bookmarks
    ensures forall s :: s != manga.slug ==> (IsBookmarked(r, s) <==> IsBookmarked(bookmarks, s))
  {
    if IsBookmarked(bookmarks, manga.slug) then bookmarks
    else
      var r := [manga] + bookmarks;
      assert r[0] == manga;
      r
  }

  /** `addBookmark` on the storage slot: read the list, and write the new
      list only when the slug was not there yet. */
  function AddBookmarkToSlot(slot: Storage.Stored<Bookmark>, manga: Bookmark): (r: Storage.Stored<Bookmark>)
    ensures Storage.Read(r) == AddBookmark(Storage.Read(slot), manga)
    ensures IsBookmarked(Storage.Read(slot), manga.slug) ==> r == slot
    ensures !slot.Json? ==> Storage.Read(r) == [manga]
  {
    var bookmarks := Storage.Read(slot);
    if IsBookmarked(bookmarks, manga.slug) then slot
    else Storage.Write([manga] + bookmarks)
  }

  /** Drops every entry carrying `slug`, keeping the others in order. */
  function RemoveBookmark(bookmarks: seq<Bookmark>, slug: string): (r: seq<Bookmark>)
    ensures !IsBookmarked(r, slug)
    ensures forall s :: s != slug ==> (IsBookmarked(r, s) <==> IsBookmarked(bookmarks, s))
    ensures |r| == |bookmarks| - Keyed.CountKey(bookmarks, Slug, slug)
    ensures Keyed.IsSubsequence(r, bookmarks)
  {
    Keyed.WithoutKeepsOthers(bookmarks, Slug, slug);
    Keyed.Without(bookmarks, Slug, slug)
  }

  /** Removes `manga` when bookmarked, adds it otherwise; the flag is the
      new membership. */
  function ToggleBookmark(bookmarks: seq<Bookmark>, manga: Bookmark): (r: (seq<Bookmark>, bool))
    ensures r.1 <==> !IsBookmarked(bookmarks, manga.slug)
    ensures IsBookmarked(r.0, manga.slug) <==> r.1
    ensures forall s :: s != manga.slug ==> (IsBookmarked(r.0, s) <==> IsBookmarked(bookmarks, s))
    ensures r.1 ==> r.0 == [manga] + bookmarks
    ensures !r.1 ==> r.0 == RemoveBookmark(bookmarks, manga.slug)
  {
    if IsBookmarked(bookmarks, manga.slug) then (RemoveBookmark(bookmarks, manga.slug), false)
    else (AddBookmark(bookmarks, manga), true)
  }

  /** No two bookmarks share a slug. */
  ghost predicate UniqueSlugs(bookmarks: seq<Bookmark>) {
    Keyed.DistinctKeys(bookmarks, Slug)
  }

  // ---------------------------------------------------------------------
  // Laws

  /** Adding twice, even with a different record for the same slug, is
      adding once: the first record stays. */
  lemma AddBookmarkIdempotent(bookmarks: seq<Bookmark>, manga: Bookmark, again: Bookmark)
    requires again.slug == manga.slug
    ensures AddBookmark(AddBookmark(bookmarks, manga), again) == AddBookmark(bookmarks, manga)
  {
  }

  /** Removing a slug that is not bookmarked changes nothing. */
  lemma {:induction false} RemoveAbsent(bookmarks: seq<Bookmark>, slug: string)
    requires !IsBookmarked(bookmarks, slug)
    ensures RemoveBookmark(bookmarks, slug) == bookmarks
  {
    Keyed.WithoutAbsent(bookmarks, Slug, slug);
  }

  /** Toggling a manga that is not bookmarked on and off again restores
      the list exactly. */
  lemma {:induction false} ToggleTwiceRestores(bookmarks: seq<Bookmark>, manga: Bookmark)
    requires !IsBookmarked(bookmarks, manga.slug)
    ensures ToggleBookmark(ToggleBookmark(bookmarks, manga).0, manga) == (bookmarks, false)
  {
    var once := ToggleBookmark(bookmarks, manga).0;
    assert once == [manga] + bookmarks;
    assert IsBookmarked(once, manga.slug);
    assert ToggleBookmark(once, manga) == (RemoveBookmark(once, manga.slug), false);
    calc {
      RemoveBookmark(once, manga.slug);
      Keyed.Without([manga] + bookmarks, Slug, manga.slug);
      { Keyed.WithoutConcat([manga], bookmarks, Slug, manga.slug); }
      Keyed.Without([manga], Slug, manga.slug) + Keyed.Without(bookmarks, Slug, manga.slug);
      { Keyed.WithoutSingleton(manga, Slug, manga.slug);
        Keyed.WithoutAbsent(bookmarks, Slug, manga.slug); }
      bookmarks;
    }
  }

  /** Adding keeps slugs unique. */
  lemma AddBookmarkUnique(bookmarks: seq<Bookmark>, manga: Bookmark)
    requires UniqueSlugs(bookmarks)
    ensures UniqueSlugs(AddBookmark(bookmarks, manga))
  {
  }

  /** Removing keeps slugs unique. */
  lemma {:induction false} RemoveBookmarkUnique(bookmarks: seq<Bookmark>, slug: string)
    requires UniqueSlugs(bookmarks)
    ensures UniqueSlugs(RemoveBookmark(bookmarks, slug))
  {
    Keyed.WithoutDistinct(bookmarks, Slug, slug);
  }

  /** Toggling keeps slugs unique. */
  lemma {:induction false} ToggleBookmarkUnique(bookmarks: seq<Bookmark>, manga: Bookmark)
    requires UniqueSlugs(bookmarks)
    ensures UniqueSlugs(ToggleBookmark(bookmarks, manga).0)
  {
    if IsBookmarked(bookmarks, manga.slug) {
      RemoveBookmarkUnique(bookmarks, manga.slug);
    } else {
      AddBookmarkUnique(bookmarks, manga);
    }
  }
}

=== FILE: bottom_nav.dfy ===
/** The mobile bottom navigation: which item is highlighted for the current
    path, and on which paths the bar is not drawn at all. */
module BottomNav {
  import opened Options

  /** A navigation entry; the icon is presentational and left out. */
  datatype NavItem = NavItem(href: string, caption: string, matchPaths: Option<seq<string>>)

  const Home := NavItem("/", "Home", Some(["/"]))
  const Search := NavItem("/search", "Cari", Some(["/search"]))
  const Bookmarks := NavItem("/bookmarks", "Bookmark", Some(["/bookmarks"]))

  /** The items of the bar, left to right. */
  const NavItems: seq<NavItem> := [Home, Search, Bookmarks]

  /** `s.startsWith(prefix)`. */
  predicate StartsWith(s: string, prefix: string) {
    |prefix| <= |s| && s[..|prefix|] == prefix
  }

  /** The bar is not drawn in the chapter reader. */
  predicate IsHidden(pathname: string) {
    StartsWith(pathname, "/chapter/")
  }

  /** `pathname` is `path` itself or lies below it. */
  predicate UnderPath(pathname: string, path: string) {
    pathname == path || StartsWith(pathname, path + "/")
  }

  /** `paths.some(path => pathname is path or below it)`. */
  function MatchesAny(paths: seq<string>, pathname: string): (r: bool)
    ensures r <==> exists i :: 0 <= i < |paths| && UnderPath(pathname, paths[i])
  {
    if |paths| == 0 then false
    else UnderPath(pathname, paths[0]) || MatchesAny(paths[1..], pathname)
  }

  /** The highlight rule: an item with match paths is active on any of them
      and below; one without is active only on its own link. */
  function IsActive(item: NavItem, pathname: string): (r: bool)
    ensures item.matchPaths.Some? ==>
              (r <==> exists i :: 0 <= i < |item.matchPaths.value| && UnderPath(pathname, item.matchPaths.value[i]))
    ensures item.matchPaths.None? ==> (r <==> pathname == item.href)
  {
    match item.matchPaths
    case Some(paths) => MatchesAny(paths, pathname)
    case None => pathname == item.href
  }

  /** What the bar shows: nothing on a hidden path, otherwise the active
      flag of each item in order. */
  function Render(pathname: string): (r: Option<seq<bool>>)
    ensures r.None? <==> IsHidden(pathname)
    ensures r.Some? ==> |r.value| == |NavItems|
    ensures r.Some? ==> forall i :: 0 <= i < |NavItems| ==> r.value[i] == IsActive(NavItems[i], pathname)
  {
    if IsHidden(pathname) then None
    else Some(seq(|NavItems|, i requires 0 <= i < |NavItems| => IsActive(NavItems[i], pathname)))
  }

  // ---------------------------------------------------------------------
  // Laws

  /** The bar disappears inside a chapter and nowhere else: "/chapter"
      and "/chapters" still show it; below "/search" only "Cari" lights up. */
  lemma RenderExamples()
    ensures Render("/chapter/x/1").None?
    ensures Render("/chapter").Some? && Render("/chapters").Some?
    ensures Render("/search/x") == Some([false, true, false])
  {
    assert "/chapter/x/1"[..9] == "/chapter/";
    assert "/chapters"[..9] != "/chapter/" by { assert "/chapters"[8] == 's'; }
    var p := "/search/x";
    assert !IsHidden(p) by { assert p[..9] != "/chapter/" by { assert p[1] == 's'; } }
    assert p[..8] == "/search/";
    assert !UnderPath(p, "/") by { assert p[..2] != "//" by { assert p[1] == 's'; } }
    assert Render(p).value == [false, true, false];
  }

  /** Home is active on "/" and not on the other sections; "/search/x"
      is below "Cari" while "/searchx" is not. (Home's match path "/" also
      makes it active on any path starting with "//".) */
  lemma ActiveExamples()
    ensures IsActive(Home, "/")
    ensures !IsActive(Home, "/search") && !IsActive(Home, "/bookmarks")
    ensures IsActive(Search, "/search/x") && !IsActive(Search, "/searchx")
    ensures IsActive(Bookmarks, "/bookmarks") && !IsActive(Bookmarks, "/bookmarksx")
  {
    assert "/search/x"[..8] == "/search/";
    assert "/searchx"[..8] != "/search/" by { assert "/searchx"[7] == 'x'; }
    assert "/bookmarksx"[..11] != "/bookmarks/" by { assert "/bookmarksx"[10] == 'x'; }
    assert "/search"[..2] != "//" by { assert "/search"[1] == 's'; }
    assert "/bookmarks"[..2] != "//" by { assert "/bookmarks"[1] == 'b'; }
  }

  /** An active matched item stays active on every path below. */
  lemma ActiveBelow(item: NavItem, pathname: string, rest: string)
    requires item.matchPaths.Some? && IsActive(item, pathname)
    ensures IsActive(item, pathname + "/" + rest)
  {
    var paths := item.matchPaths.value;
    var i :| 0 <= i < |paths| && UnderPath(pathname, paths[i]);
    var p := paths[i];
    var longer := pathname + "/" + rest;
    if pathname == p {
      assert longer[..|p + "/"|] == p + "/";
    } else {
      assert longer[..|p + "/"|] == pathname[..|p + "/"|];
    }
    assert UnderPath(longer, p);
  }

  /** The second character of a path, or a space for a path shorter than
      two characters. */
  function SecondChar(pathname: string): char {
    if |pathname| < 2 then ' ' else pathname[1]
  }

  /** Each item pins down the second character of any path it is active on. */
  lemma ActiveSecondChar(pathname: string)
    ensures IsActive(Home, pathname) ==> SecondChar(pathname) in {' ', '/'}
    ensures IsActive(Search, pathname) ==> SecondChar(pathname) == 's'
    ensures IsActive(Bookmarks, pathname) ==> SecondChar(pathname) == 'b'
  {
    if IsActive(Search, pathname) && pathname != "/search" {
      assert pathname[..8] == "/search/";
      assert pathname[1] == pathname[..8][1];
    }
    if IsActive(Bookmarks, pathname) && pathname != "/bookmarks" {
      assert pathname[..11] == "/bookmarks/";
      assert pathname[1] == pathname[..11][1];
    }
    if IsActive(Home, pathname) && pathname != "/" {
      assert pathname[..2] == "//";
      assert pathname[1] == pathname[..2][1];
    }
  }

  /** For any path at most one item of the bar is highlighted. */
  lemma AtMostOneActive(pathname: string)
    ensures forall i, j :: 0 <= i < j < |NavItems| ==>
              !(IsActive(NavItems[i], pathname) && IsActive(NavItems[j], pathname))
  {
    ActiveSecondChar(pathname);
  }
}

=== FILE: decimal.dfy ===
/** Decimal rendering of a non-negative integer, as a template literal
    prints a whole number: the digits, no sign, no leading zeros. */
module Decimal {

  predicate IsDigit(c: char) { '0' <= c <= '9' }

  predicate AllDigits(s: string) {
    forall i :: 0 <= i < |s| ==> IsDigit(s[i])
  }

  function DigitChar(d: nat): (c: char)
    requires d < 10
    ensures IsDigit(c)
    ensures DigitValue(c) == d
  {
    ['0', '1', '2', '3', '4', '5', '6', '7', '8', '9'][d]
  }

  function DigitValue(c: char): (d: nat)
    requires IsDigit(c)
    ensures d < 10
  {
    (c as int - '0' as int) as nat
  }

  /** The decimal text of `n`. */
  function Show(n: nat): (s: string)
    ensures |s| > 0 && AllDigits(s)
    ensures |s| > 1 ==> s[0] != '0'
  {
    if n < 10 then [DigitChar(n)]
    else Show(n / 10) + [DigitChar(n % 10)]
  }

  /** The value of a string of digits. */
  function Parse(s: string): nat
    requires AllDigits(s)
  {
    if |s| == 0 then 0
    else Parse(s[..|s| - 1]) * 10 + DigitValue(s[|s| - 1])
  }

  /** Reading the decimal text back gives the number. */
  lemma {:induction false} ParseShow(n: nat)
    ensures Parse(Show(n)) == n
  {
    var s := Show(n);
    if n < 10 {
      assert s[..0] == [];
    } else {
      ParseShow(n / 10);
      assert s[..|s| - 1] == Show(n / 10);
      assert DigitValue(s[|s| - 1]) == n % 10;
    }
  }

  /** Writing a digit's value gives the digit back. */
  lemma DigitCharValue(c: char)
    requires IsDigit(c)
    ensures DigitChar(DigitValue(c)) == c
  {
  }

  /** Digits that do not start with a zero have a positive value. */
  lemma {:induction false} ParsePositive(s: string)
    requires |s| > 0 && AllDigits(s) && s[0] != '0'
    ensures Parse(s) > 0
    decreases |s|
  {
    if |s| > 1 {
      ParsePositive(s[..|s| - 1]);
    }
  }

  /** Digit text without a leading zero is the decimal text of its value:
      together with `ParseShow`, `Show` and `Parse` are inverse bijections
      between numbers and canonical digit strings. */
  lemma {:induction false} ShowParse(s: string)
    requires |s| > 0 && AllDigits(s)
    requires |s| > 1 ==> s[0] != '0'
    ensures Show(Parse(s)) == s
    decreases |s|
  {
    var last := s[|s| - 1];
    DigitCharValue(last);
    if |s| == 1 {
      assert s[..0] == [];
    } else {
      var init := s[..|s| - 1];
      ParsePositive(init);
      ShowParse(init);
      var n, d := Parse(s), DigitValue(last);
      assert n == Parse(init) * 10 + d;
      assert n / 10 == Parse(init) && n % 10 == d;
      assert Show(n) == Show(n / 10) + [DigitChar(n % 10)];
      assert s == init + [last];
    }
  }

  /** Length of the run of digits a string starts with. */
  function DigitRun(s: string): (n: nat)
    ensures n <= |s|
    ensures AllDigits(s[..n])
  {
    if |s| == 0 || !IsDigit(s[0]) then 0
    else
      var n := 1 + DigitRun(s[1..]);
      assert s[..n] == [s[0]] + s[1..][..n - 1];
      n
  }

  /** Digits followed by a non-digit: the run ends exactly where the digits do. */
  lemma {:induction false} DigitRunOfPrefix(digits: string, rest: string)
    requires AllDigits(digits)
    requires |rest| == 0 || !IsDigit(rest[0])
    ensures DigitRun(digits + rest) == |digits|
  {
    if |digits| == 0 {
      assert digits + rest == rest;
    } else {
      assert (digits + rest)[1..] == digits[1..] + rest;
      DigitRunOfPrefix(digits[1..], rest);
    }
  }
}

=== FILE: keyed.dfy ===
/** Sequences whose elements are identified by a string key (a manga slug).
    Every list the application keeps is looked up, filtered and
    de-duplicated by such a key; the generic operations and their laws live
    here once. The list-building functions recurse on the last element, so
    that they follow a loop that appends to its result. */
module Keyed {
  import opened Options

  /** The `Array.prototype.some(x => key(x) === k)` test. */
  function Contains<T>(xs: seq<T>, key: T -> string, k: string): (r: bool)
    ensures r <==> exists i :: 0 <= i < |xs| && key(xs[i]) == k
  {
    if |xs| == 0 then false
    else Contains(xs[..|xs| - 1], key, k) || key(xs[|xs| - 1]) == k
  }

  /** Number of elements whose key is `k`. */
  function CountKey<T>(xs: seq<T>, key: T -> string, k: string): (r: nat)
    ensures r <= |xs|
    ensures r == 0 <==> !Contains(xs, key, k)
  {
    if |xs| == 0 then 0
    else CountKey(xs[..|xs| - 1], key, k) + (if key(xs[|xs| - 1]) == k then 1 else 0)
  }

  /** No two elements share a key. */
  ghost predicate DistinctKeys<T>(xs: seq<T>, key: T -> string) {
    forall i, j :: 0 <= i < j < |xs| ==> key(xs[i]) != key(xs[j])
  }

  /** `a` is `b` with some elements dropped and the rest kept in order. */
  ghost predicate IsSubsequence<T>(a: seq<T>, b: seq<T>)
    decreases |b|
  {
    || |a| == 0
    || (&& |b| > 0
        && (|| (a[|a| - 1] == b[|b| - 1] && IsSubsequence(a[..|a| - 1], b[..|b| - 1]))
            || IsSubsequence(a, b[..|b| - 1])))
  }

  /** The `Array.prototype.filter(x => key(x) !== k)` result. */
  function Without<T(==)>(xs: seq<T>, key: T -> string, k: string): (r: seq<T>)
    ensures |r| == |xs| - CountKey(xs, key, k)
    ensures !Contains(r, key, k)
    ensures IsSubsequence(r, xs)
  {
    if |xs| == 0 then []
    else
      var init, last := xs[..|xs| - 1], xs[|xs| - 1];
      assert xs == init + [last];
      var rest := Without(init, key, k);
      if key(last) == k then rest else rest + [last]
  }

  /** The index of the first element with key `k`, or `|xs|` when there is none. */
  function IndexOfKey<T>(xs: seq<T>, key: T -> string, k: string): (r: nat)
    ensures r <= |xs|
    ensures r < |xs| ==> key(xs[r]) == k
    ensures forall j :: 0 <= j < r ==> key(xs[j]) != k
  {
    if |xs| == 0 then 0
    else
      var i := IndexOfKey(xs[..|xs| - 1], key, k);
      if i < |xs| - 1 then i
      else if key(xs[|xs| - 1]) == k then |xs| - 1
      else |xs|
  }

  /** The `Array.prototype.find(x => key(x) === k)` result, `None` for `undefined`. */
  function FindFirst<T>(xs: seq<T>, key: T -> string, k: string): (r: Option<T>)
    ensures r.None? <==> !Contains(xs, key, k)
    ensures r.Some? ==> key(r.value) == k
    ensures r.Some? ==> exists i :: 0 <= i < |xs| && xs[i] == r.value
                                  && forall j :: 0 <= j < i ==> key(xs[j]) != k
  {
    var i := IndexOfKey(xs, key, k);
    if i < |xs| then Some(xs[i]) else None
  }

  /** The elements of `xs` whose key did not occur earlier: later
      duplicates are dropped and the order is kept. */
  function FirstOccurrences<T>(xs: seq<T>, key: T -> string): (r: seq<T>)
  {
    if |xs| == 0 then []
    else
      var init, last := xs[..|xs| - 1], xs[|xs| - 1];
      if Contains(init, key, key(last)) then FirstOccurrences(init, key)
      else FirstOccurrences(init, key) + [last]
  }

  // ---------------------------------------------------------------------
  // Laws of the key-indexed operations

  /** Appending an element only adds its key. */
  lemma ContainsAppend<T>(xs: seq<T>, y: T, key: T -> string, k: string)
    ensures Contains(xs + [y], key, k) <==> Contains(xs, key, k) || key(y) == k
  {
    assert (xs + [y])[..|xs + [y]| - 1] == xs;
  }

  /** Counting distributes over concatenation. */
  lemma {:induction false} CountKeyConcat<T>(a: seq<T>, b: seq<T>, key: T -> string, k: string)
    ensures CountKey(a + b, key, k) == CountKey(a, key, k) + CountKey(b, key, k)
    decreases |b|
  {
    if |b| == 0 {
      assert a + b == a;
    } else {
      var init := b[..|b| - 1];
      assert (a + b)[..|a + b| - 1] == a + init;
      CountKeyConcat(a, init, key, k);
    }
  }

  /** Filtering a list that has no element with key `k` changes nothing. */
  lemma {:induction false} WithoutAbsent<T>(xs: seq<T>, key: T -> string, k: string)
    requires !Contains(xs, key, k)
    ensures Without(xs, key, k) == xs
  {
    if |xs| > 0 {
      var init, last := xs[..|xs| - 1], xs[|xs| - 1];
      assert !Contains(init, key, k) && key(last) != k;
      WithoutAbsent(init, key, k);
      assert Without(xs, key, k) == Without(init, key, k) + [last];
      assert xs == init + [last];
    }
  }

  /** Filtering distributes over concatenation. */
  lemma {:induction false} WithoutConcat<T>(a: seq<T>, b: seq<T>, key: T -> string, k: string)
    ensures Without(a + b, key, k) == Without(a, key, k) + Without(b, key, k)
    decreases |b|
  {
    if |b| == 0 {
      assert a + b == a;
    } else {
      var init := b[..|b| - 1];
      assert (a + b)[..|a + b| - 1] == a + init;
      assert (a + b)[|a + b| - 1] == b[|b| - 1];
      WithoutConcat(a, init, key, k);
    }
  }

  /** A one-element list whose key is `k` filters to nothing. */
  lemma WithoutSingleton<T>(x: T, key: T -> string, k: string)
    ensures Without([x], key, k) == if key(x) == k then [] else [x]
  {
    assert [x][..0] == [];
  }

  /** Filtering keeps keys distinct. */
  lemma {:induction false} WithoutDistinct<T>(xs: seq<T>, key: T -> string, k: string)
    requires DistinctKeys(xs, key)
    ensures DistinctKeys(Without(xs, key, k), key)
  {
    if |xs| > 0 {
      var init, last := xs[..|xs| - 1], xs[|xs| - 1];
      assert DistinctKeys(init, key);
      WithoutDistinct(init, key, k);
      var rest := Without(init, key, k);
      if key(last) != k {
        assert !Contains(init, key, key(last)) by {
          forall i | 0 <= i < |init|
            ensures key(init[i]) != key(last)
          {
            assert init[i] == xs[i];
          }
        }
        WithoutKeepsOthers(init, key, k);
        assert !Contains(rest, key, key(last));
        assert Without(xs, key, k) == rest + [last];
      }
    }
  }

  /** Putting an element with a new key in front keeps keys distinct. */
  lemma DistinctCons<T>(x: T, xs: seq<T>, key: T -> string)
    requires DistinctKeys(xs, key)
    requires !Contains(xs, key, key(x))
    ensures DistinctKeys([x] + xs, key)
  {
    forall i, j | 0 <= i < j < |[x] + xs|
      ensures key(([x] + xs)[i]) != key(([x] + xs)[j])
    {
      assert ([x] + xs)[j] == xs[j - 1];
    }
  }

  /** Filtering by `k` keeps every other key present exactly when it was. */
  lemma {:induction false} WithoutKeepsOthers<T>(xs: seq<T>, key: T -> string, k: string)
    ensures forall other :: other != k ==> (Contains(Without(xs, key, k), key, other) <==> Contains(xs, key, other))
  {
    if |xs| > 0 {
      var init, last := xs[..|xs| - 1], xs[|xs| - 1];
      WithoutKeepsOthers(init, key, k);
      var rest := Without(init, key, k);
      forall other | other != k
        ensures Contains(Without(xs, key, k), key, other) <==> Contains(xs, key, other)
      {
        if key(last) != k {
          ContainsAppend(rest, last, key, other);
        }
      }
    }
  }

  /** Filtering by `k` keeps the first element of every other key. */
  lemma {:induction false} FindFirstWithoutOther<T>(xs: seq<T>, key: T -> string, k: string, other: string)
    requires k != other
    ensures FindFirst(Without(xs, key, k), key, other) == FindFirst(xs, key, other)
  {
    if |xs| > 0 {
      var init, last := xs[..|xs| - 1], xs[|xs| - 1];
      assert xs == init + [last];
      FindFirstWithoutOther(init, key, k, other);
      var rest := Without(init, key, k);
      FindFirstAppend(init, last, key, other);
      if key(last) == k {
        assert Without(xs, key, k) == rest;
      } else {
        assert Without(xs, key, k) == rest + [last];
        FindFirstAppend(rest, last, key, other);
      }
    }
  }

  /** Appending an element leaves an earlier match in place and otherwise
      can only supply the match itself. */
  lemma FindFirstAppend<T>(xs: seq<T>, y: T, key: T -> string, k: string)
    ensures FindFirst(xs + [y], key, k)
              == if Contains(xs, key, k) then FindFirst(xs, key, k)
                 else if key(y) == k then Some(y) else None
  {
    assert (xs + [y])[..|xs + [y]| - 1] == xs;
  }

  /** A front element with another key does not change the search. */
  lemma {:induction false} FindFirstConsOther<T>(y: T, xs: seq<T>, key: T -> string, k: string)
    requires key(y) != k
    ensures FindFirst([y] + xs, key, k) == FindFirst(xs, key, k)
    decreases |xs|
  {
    if |xs| > 0 {
      var init, last := xs[..|xs| - 1], xs[|xs| - 1];
      assert xs == init + [last];
      assert [y] + xs == ([y] + init) + [last];
      FindFirstConsOther(y, init, key, k);
      FindFirstAppend([y] + init, last, key, k);
      FindFirstAppend(init, last, key, k);
      assert Contains([y] + init, key, k) <==> Contains(init, key, k) by {
        assert FindFirst([y] + init, key, k) == FindFirst(init, key, k);
      }
    } else {
      assert [y] + xs == [] + [y];
      FindFirstAppend([], y, key, k);
    }
  }

  /** A prefix that reaches past the first match finds the same element. */
  lemma FindFirstWithinPrefix<T>(xs: seq<T>, n: nat, key: T -> string, k: string)
    requires n <= |xs|
    requires IndexOfKey(xs, key, k) < n
    ensures FindFirst(xs[..n], key, k) == FindFirst(xs, key, k)
  {
    var i := IndexOfKey(xs, key, k);
    assert xs[..n][i] == xs[i];
    assert IndexOfKey(xs[..n], key, k) == i;
  }

  /** A prefix either finds the same first element or nothing. */
  lemma {:induction false} FindFirstPrefix<T>(xs: seq<T>, n: nat, key: T -> string, k: string)
    requires n <= |xs|
    ensures FindFirst(xs[..n], key, k) == FindFirst(xs, key, k) || FindFirst(xs[..n], key, k).None?
    decreases |xs| - n
  {
    if n < |xs| {
      var m := xs[..n + 1];
      assert m[..|m| - 1] == xs[..n];
      FindFirstAppend(xs[..n], xs[n], key, k);
      assert xs[..n] + [xs[n]] == m;
      FindFirstPrefix(xs, n + 1, key, k);
    } else {
      assert xs[..n] == xs;
    }
  }

  /** Subsequence is transitive. */
  lemma {:induction false} SubsequenceTransitive<T>(a: seq<T>, b: seq<T>, c: seq<T>)
    requires IsSubsequence(a, b) && IsSubsequence(b, c)
    ensures IsSubsequence(a, c)
    decreases |c|
  {
    if |a| > 0 {
      var b' := b[..|b| - 1];
      var c' := c[..|c| - 1];
      if IsSubsequence(b, c') {
        SubsequenceTransitive(a, b, c');
      } else if a[|a| - 1] == b[|b| - 1] && IsSubsequence(a[..|a| - 1], b') {
        SubsequenceTransitive(a[..|a| - 1], b', c');
      } else {
        SubsequenceTransitive(a, b', c');
      }
    }
  }

  /** A prefix is a subsequence. */
  lemma {:induction false} PrefixIsSubsequence<T>(xs: seq<T>, n: nat)
    requires n <= |xs|
    ensures IsSubsequence(xs[..n], xs)
  {
    if n > 0 {
      var init := xs[..|xs| - 1];
      if n == |xs| {
        PrefixIsSubsequence(init, n - 1);
        assert xs[..n][..n - 1] == init[..n - 1];
      } else {
        PrefixIsSubsequence(init, n);
        assert init[..n] == xs[..n];
      }
    }
  }

  // ---------------------------------------------------------------------
  // Laws of FirstOccurrences

  /** The keys occurring in `xs`. */
  function KeySet<T>(xs: seq<T>, key: T -> string): set<string>
  {
    if |xs| == 0 then {} else KeySet(xs[..|xs| - 1], key) + {key(xs[|xs| - 1])}
  }

  /** A key is in the key set exactly when some element carries it. */
  lemma {:induction false} KeySetContains<T>(xs: seq<T>, key: T -> string, k: string)
    ensures k in KeySet(xs, key) <==> Contains(xs, key, k)
  {
    if |xs| > 0 {
      KeySetContains(xs[..|xs| - 1], key, k);
    }
  }

  /** One more element: its key joins the key set, and it is kept exactly
      when its key is new. */
  lemma FirstOccurrencesAppend<T>(xs: seq<T>, x: T, key: T -> string)
    ensures KeySet(xs + [x], key) == KeySet(xs, key) + {key(x)}
    ensures FirstOccurrences(xs + [x], key)
              == if key(x) in KeySet(xs, key) then FirstOccurrences(xs, key)
                 else FirstOccurrences(xs, key) + [x]
  {
    assert (xs + [x])[..|xs|] == xs;
    KeySetContains(xs, key, key(x));
  }


  /** The first position of a key, before and after appending one element. */
  lemma IndexOfKeyAppend<T>(xs: seq<T>, x: T, key: T -> string, k: string)
    ensures IndexOfKey(xs, key, k) < |xs| <==> Contains(xs, key, k)
    ensures Contains(xs, key, k) ==> IndexOfKey(xs + [x], key, k) == IndexOfKey(xs, key, k)
    ensures !Contains(xs, key, k) && key(x) == k ==> IndexOfKey(xs + [x], key, k) == |xs|
  {
    assert (xs + [x])[..|xs|] == xs;
  }

  /** Every key of the input survives, and no other key appears. */
  lemma {:induction false} FirstOccurrencesKeys<T>(xs: seq<T>, key: T -> string, k: string)
    ensures Contains(FirstOccurrences(xs, key), key, k) <==> Contains(xs, key, k)
  {
    if |xs| > 0 {
      var init, last := xs[..|xs| - 1], xs[|xs| - 1];
      assert xs == init + [last];
      FirstOccurrencesKeys(init, key, k);
      FirstOccurrencesKeys(init, key, key(last));
      ContainsAppend(init, last, key, k);
      ContainsAppend(FirstOccurrences(init, key), last, key, k);
    }
  }

  /** No key appears twice in the result. */
  lemma {:induction false} FirstOccurrencesDistinct<T>(xs: seq<T>, key: T -> string)
    ensures DistinctKeys(FirstOccurrences(xs, key), key)
  {
    if |xs| > 0 {
      var init, last := xs[..|xs| - 1], xs[|xs| - 1];
      FirstOccurrencesDistinct(init, key);
      FirstOccurrencesKeys(init, key, key(last));
    }
  }

  /** The result keeps input elements in their input order. */
  lemma {:induction false} FirstOccurrencesSubsequence<T>(xs: seq<T>, key: T -> string)
    ensures IsSubsequence(FirstOccurrences(xs, key), xs)
  {
    if |xs| > 0 {
      var init, last := xs[..|xs| - 1], xs[|xs| - 1];
      var rest := FirstOccurrences(init, key);
      FirstOccurrencesSubsequence(init, key);
      if !Contains(init, key, key(last)) {
        assert (rest + [last])[..|rest|] == rest;
      }
    }
  }

  /** Kept elements appear in the order their keys first occur. */
  lemma {:induction false} FirstOccurrencesOrdered<T>(xs: seq<T>, key: T -> string)
    ensures forall i, j :: 0 <= i < j < |FirstOccurrences(xs, key)| ==>
              IndexOfKey(xs, key, key(FirstOccurrences(xs, key)[i]))
                < IndexOfKey(xs, key, key(FirstOccurrences(xs, key)[j]))
  {
    if |xs| > 0 {
      var init, last := xs[..|xs| - 1], xs[|xs| - 1];
      assert xs == init + [last];
      var rest := FirstOccurrences(init, key);
      FirstOccurrencesOrdered(init, key);
      forall i | 0 <= i < |rest|
        ensures IndexOfKey(xs, key, key(rest[i])) == IndexOfKey(init, key, key(rest[i])) < |init|
      {
        FirstOccurrencesKeys(init, key, key(rest[i]));
        IndexOfKeyAppend(init, last, key, key(rest[i]));
      }
      if !Contains(init, key, key(last)) {
        IndexOfKeyAppend(init, last, key, key(last));
        var kept := rest + [last];
        forall i, j | 0 <= i < j < |kept|
          ensures IndexOfKey(xs, key, key(kept[i])) < IndexOfKey(xs, key, key(kept[j]))
        {
          assert kept[i] == rest[i];
          if j < |rest| {
            assert kept[j] == rest[j];
          }
        }
      }
    }
  }

  /** The first occurrence wins: each kept element is the one a left-to-right
      search for its key finds. */
  lemma {:induction false} FirstOccurrencesFirstWins<T>(xs: seq<T>, key: T -> string)
    ensures forall x :: x in FirstOccurrences(xs, key) ==> FindFirst(xs, key, key(x)) == Some(x)
  {
    if |xs| > 0 {
      var init, last := xs[..|xs| - 1], xs[|xs| - 1];
      assert xs == init + [last];
      var rest := FirstOccurrences(init, key);
      FirstOccurrencesFirstWins(init, key);
      forall x | x in FirstOccurrences(xs, key)
        ensures FindFirst(xs, key, key(x)) == Some(x)
      {
        FindFirstAppend(init, last, key, key(x));
        if x in rest {
          assert FindFirst(init, key, key(x)) == Some(x);
        }
      }
    }
  }
}

=== FILE: latest_feed.dfy ===
/** The home page's "latest updates" list: the first page of latest manga
    arrives with the home payload, later pages come from an infinite query,
    and the shown list is their concatenation with repeated slugs dropped. */
module LatestFeed {
  import opened Options
  import Keyed
  import Seqs

  /** The scraper a summary came from. */
  datatype FeedSource = Komikcast | Komiku

  /** A manga summary as the API returns it; only `slug` takes part in
      the merge, every other field travels with the record. */
  datatype Manga = Manga(
    title: string,
    slug: string,
    cover: string,
    kind: Option<string>,
    chapter: Option<string>,
    rating: Option<string>,
    source: Option<FeedSource>,
    updatedAt: Option<string>,
    updatedTimestamp: Option<string>)

  /** A summary with only the required fields set. */
  function Card(slug: string, title: string): Manga {
    Manga(title, slug, "", None, None, None, None, None, None)
  }

  /** One page of the infinite query. */
  datatype LatestPage = LatestPage(data: seq<Manga>, page: int)

  function Slug(m: Manga): string { m.slug }

  /** The page parameter of the infinite query's first request. */
  const InitialPageParam: int := 1

  /** The infinite query's page function. Page 1 is already part of the home
      payload, so it is answered with no manga and no request;
      `getLatest` stands for the remote call for any other page. */
  function FetchLatestPage(pageParam: int, getLatest: int -> seq<Manga>): (r: LatestPage)
    ensures r.page == pageParam
    ensures pageParam == InitialPageParam ==> r.data == []
    ensures pageParam != InitialPageParam ==> r.data == getLatest(pageParam)
  {
    if pageParam == 1 then LatestPage([], 1)
    else LatestPage(getLatest(pageParam), pageParam)
  }

  /** The parameter for the page after `lastPage`; there is always one. */
  function NextPageParam(lastPage: LatestPage): (r: int)
    ensures r > lastPage.page
  {
    lastPage.page + 1
  }

  /** The pages the infinite query holds after `n` fetches. */
  function QueryPages(n: nat, getLatest: int -> seq<Manga>): (r: seq<LatestPage>)
    ensures |r| == n
    ensures forall i :: 0 <= i < n ==> r[i].page == i + 1
    ensures forall i :: 0 <= i < n ==> r[i] == FetchLatestPage(i + 1, getLatest)
  {
    if n == 0 then []
    else
      var before := QueryPages(n - 1, getLatest);
      var param := if n == 1 then InitialPageParam else NextPageParam(before[n - 2]);
      before + [FetchLatestPage(param, getLatest)]
  }

  /** All manga of `pages`, page after page. */
  function Flatten(pages: seq<LatestPage>): seq<Manga>
  {
    if |pages| == 0 then []
    else Flatten(pages[..|pages| - 1]) + pages[|pages| - 1].data
  }

  /** The home payload's manga followed by those of every fetched page;
      an absent part contributes nothing. */
  function Combined(homeLatest: Option<seq<Manga>>, pages: Option<seq<LatestPage>>): seq<Manga>
  {
    OrEmpty(homeLatest) + Flatten(OrEmpty(pages))
  }

  /** Taking one more page appends its manga. */
  lemma FlattenStep(pages: seq<LatestPage>, k: nat)
    requires k < |pages|
    ensures Flatten(pages[..k + 1]) == Flatten(pages[..k]) + pages[k].data
  {
    assert pages[..k + 1][..k] == pages[..k];
  }

  /** The list the home page shows. */
  function AllLatestManga(homeLatest: Option<seq<Manga>>, pages: Option<seq<LatestPage>>): seq<Manga>
  {
    Keyed.FirstOccurrences(Combined(homeLatest, pages), Slug)
  }

  /** Appends to `result` each manga of `items` whose slug is not in `seen`,
      recording the slug; `before` is everything visited so far. */
  method AddUnseen(items: seq<Manga>, seen: set<string>, result: seq<Manga>, ghost before: seq<Manga>)
    returns (seen': set<string>, result': seq<Manga>)
    requires result == Keyed.FirstOccurrences(before, Slug)
    requires seen == Keyed.KeySet(before, Slug)
    ensures result' == Keyed.FirstOccurrences(before + items, Slug)
    ensures seen' == Keyed.KeySet(before + items, Slug)
  {
    seen', result' := seen, result;
    var i := 0;
    ghost var visited := before;
    assert before + items[..0] == before;
    while i < |items|
      invariant 0 <= i <= |items|
      invariant visited == before + items[..i]
      invariant result' == Keyed.FirstOccurrences(visited, Slug)
      invariant seen' == Keyed.KeySet(visited, Slug)
    {
      var manga := items[i];
      Keyed.FirstOccurrencesAppend(visited, manga, Slug);
      if manga.slug !in seen' {
        seen' := seen' + {manga.slug};
        result' := result' + [manga];
      }
      Seqs.PrefixSnoc(items, i);
      Seqs.ConcatAssociative(before, items[..i], [manga]);
      visited := visited + [manga];
      i := i + 1;
    }
    assert items[..i] == items;
  }

  /** Runs `AddUnseen` over the manga of every page in order. */
  method AddPages(pages: seq<LatestPage>, seen: set<string>, result: seq<Manga>, ghost before: seq<Manga>)
    returns (seen': set<string>, result': seq<Manga>)
    requires result == Keyed.FirstOccurrences(before, Slug)
    requires seen == Keyed.KeySet(before, Slug)
    ensures result' == Keyed.FirstOccurrences(before + Flatten(pages), Slug)
    ensures seen' == Keyed.KeySet(before + Flatten(pages), Slug)
  {
    seen', result' := seen, result;
    var k := 0;
    ghost var visited := before;
    assert before + Flatten(pages[..0]) == before;
    while k < |pages|
      invariant 0 <= k <= |pages|
      invariant visited == before + Flatten(pages[..k])
      invariant result' == Keyed.FirstOccurrences(visited, Slug)
      invariant seen' == Keyed.KeySet(visited, Slug)
    {
      seen', result' := AddUnseen(pages[k].data, seen', result', visited);
      FlattenStep(pages, k);
      Seqs.ConcatAssociative(before, Flatten(pages[..k]), pages[k].data);
      visited := visited + pages[k].data;
      k := k + 1;
    }
    assert pages[..k] == pages;
  }

  /** The memoised merge: home manga first, then every page in order, each
      slug kept at its first occurrence. */
  method MergeLatest(homeLatest: Option<seq<Manga>>, pages: Option<seq<LatestPage>>)
    returns (result: seq<Manga>)
    ensures result == AllLatestManga(homeLatest, pages)
  {
    var seen: set<string> := {};
    result := [];
    assert seen == Keyed.KeySet([], Slug);
    if homeLatest.Some? {
      seen, result := AddUnseen(homeLatest.value, seen, result, []);
      assert [] + homeLatest.value == OrEmpty(homeLatest);
    }
    ghost var home := OrEmpty(homeLatest);
    assert result == Keyed.FirstOccurrences(home, Slug);
    if pages.Some? {
      seen, result := AddPages(pages.value, seen, result, home);
      assert Combined(homeLatest, pages) == home + Flatten(pages.value);
    } else {
      assert Flatten([]) == [];
      assert Combined(homeLatest, pages) == home;
    }
  }

  // ---------------------------------------------------------------------
  // Laws

  /** The shown list holds every slug of the input exactly once, at its
      first occurrence, in input order. */
  lemma {:induction false} AllLatestMangaSpec(homeLatest: Option<seq<Manga>>, pages: Option<seq<LatestPage>>)
    ensures var shown := AllLatestManga(homeLatest, pages);
            && Keyed.DistinctKeys(shown, Slug)
            && (forall s :: Keyed.Contains(shown, Slug, s) <==> Keyed.Contains(Combined(homeLatest, pages), Slug, s))
            && Keyed.IsSubsequence(shown, Combined(homeLatest, pages))
            && (forall m :: m in shown ==> Keyed.FindFirst(Combined(homeLatest, pages), Slug, m.slug) == Some(m))
            && (forall i, j :: 0 <= i < j < |shown| ==>
                  Keyed.IndexOfKey(Combined(homeLatest, pages), Slug, Slug(shown[i]))
                    < Keyed.IndexOfKey(Combined(homeLatest, pages), Slug, Slug(shown[j])))
  {
    var all := Combined(homeLatest, pages);
    var shown := AllLatestManga(homeLatest, pages);
    Keyed.FirstOccurrencesOrdered(all, Slug);
    assert shown == Keyed.FirstOccurrences(all, Slug);
    assert forall i, j :: 0 <= i < j < |shown| ==>
             Keyed.IndexOfKey(all, Slug, Slug(shown[i])) < Keyed.IndexOfKey(all, Slug, Slug(shown[j]));
    Keyed.FirstOccurrencesDistinct(all, Slug);
    Keyed.FirstOccurrencesSubsequence(all, Slug);
    Keyed.FirstOccurrencesFirstWins(all, Slug);
    forall s ensures Keyed.Contains(AllLatestManga(homeLatest, pages), Slug, s) <==> Keyed.Contains(all, Slug, s) {
      Keyed.FirstOccurrencesKeys(all, Slug, s);
    }
  }

  /** Without the home payload only the pages count; without either the list
      is empty. */
  lemma AllLatestMangaAbsent(pages: Option<seq<LatestPage>>)
    ensures AllLatestManga(None, pages) == Keyed.FirstOccurrences(Flatten(OrEmpty(pages)), Slug)
    ensures AllLatestManga(None, None) == []
  {
    assert Combined(None, pages) == Flatten(OrEmpty(pages));
    assert Combined(None, None) == [];
  }

  /** The manga fetched remotely for pages 2 to `n`. */
  function Fetched(n: nat, getLatest: int -> seq<Manga>): seq<Manga>
  {
    if n <= 1 then [] else Fetched(n - 1, getLatest) + getLatest(n)
  }

  /** After `n` fetches the infinite query holds exactly the remote pages 2
      to `n`: its first page contributes nothing to the merge. */
  lemma {:induction false} QueryPagesContent(n: nat, getLatest: int -> seq<Manga>)
    ensures Flatten(QueryPages(n, getLatest)) == Fetched(n, getLatest)
  {
    if n > 0 {
      var pages := QueryPages(n, getLatest);
      assert pages[..n - 1] == QueryPages(n - 1, getLatest);
      QueryPagesContent(n - 1, getLatest);
      assert pages[n - 1] == FetchLatestPage(n, getLatest);
      if n == 1 {
        assert Flatten(pages) == Flatten(pages[..0]) + [];
      }
    }
  }

  /** The merge over the infinite query's pages is the home manga followed by
      the remote pages 2 to `n`, de-duplicated. */
  lemma MergeOfQueryPages(homeLatest: Option<seq<Manga>>, n: nat, getLatest: int -> seq<Manga>)
    ensures AllLatestManga(homeLatest, Some(QueryPages(n, getLatest)))
              == Keyed.FirstOccurrences(OrEmpty(homeLatest) + Fetched(n, getLatest), Slug)
  {
    QueryPagesContent(n, getLatest);
  }

  /** A second page repeating a slug of the first contributes only its new
      manga, and the first record of the repeated slug is the one kept. */
  lemma MergeExample()
    ensures var a, b, c := Card("a", "A"), Card("b", "B"), Card("c", "C");
            var b' := Card("b", "B again");
            AllLatestManga(Some([a, b]), Some([LatestPage([], 1), LatestPage([b', c], 2)])) == [a, b, c]
  {
    var a, b, c := Card("a", "A"), Card("b", "B"), Card("c", "C");
    var b' := Card("b", "B again");
    var pages := [LatestPage([], 1), LatestPage([b', c], 2)];
    assert pages[..1] == [LatestPage([], 1)];
    assert pages[..1][..0] == [];
    assert Flatten(pages[..1]) == [];
    assert Flatten(pages) == Flatten(pages[..1]) + [b', c];
    var all := [a, b, b', c];
    assert Combined(Some([a, b]), Some(pages)) == all;
    assert all[..3] == [a, b, b'];
    assert all[..3][..2] == [a, b];
    assert all[..3][..2][..1] == [a];
    assert [a][..0] == [];
    assert Keyed.FirstOccurrences([a], Slug) == [a];
    assert Keyed.FirstOccurrences([a, b], Slug) == [a, b];
    assert Keyed.Contains([a, b], Slug, "b");
    assert Keyed.FirstOccurrences([a, b, b'], Slug) == [a, b];
    assert !Keyed.Contains([a, b, b'], Slug, "c");
  }
}

=== FILE: options.dfy ===
/** The optional value used wherever the application works with `null`,
    `undefined` or an absent field. */
module Options {

  datatype Option<T> = None | Some(value: T)

  /** `list ?? []`: the list carried, or the empty list when there is none. */
  function OrEmpty<T>(o: Option<seq<T>>): (r: seq<T>)
    ensures o.Some? ==> r == o.value
    ensures o.None? ==> r == []
  {
    if o.Some? then o.value else []
  }
}

=== FILE: reading_history.dfy ===
/** The reading-history store: the last chapter read per manga, most
    recently saved first, capped at `MaxHistoryItems` entries. */
module ReadingHistory {
  import opened Options
  import Keyed
  import Storage
  import opened Seqs

  /** Upper bound on the number of remembered manga. */
  const MaxHistoryItems: nat := 20

  datatype ReadingProgress = ReadingProgress(
    mangaSlug: string,
    mangaTitle: string,
    mangaCover: string,
    chapterSlug: string,
    chapterTitle: string,
    currentPage: int,
    totalPages: int,
    timestamp: int,
    source: Option<string>)

  function MangaSlug(p: ReadingProgress): string { p.mangaSlug }

  /** Upserts `progress`: the old entry for the same manga is dropped, the
      new one goes in front, and the list is cut to the cap. */
  function SaveReadingProgress(history: seq<ReadingProgress>, progress: ReadingProgress): (r: seq<ReadingProgress>)
    ensures 0 < |r| <= MaxHistoryItems
    ensures r[0] == progress
    ensures Keyed.CountKey(r, MangaSlug, progress.mangaSlug) == 1
    ensures |r| == Min(MaxHistoryItems, 1 + |history| - Keyed.CountKey(history, MangaSlug, progress.mangaSlug))
    ensures !Keyed.Contains(r[1..], MangaSlug, progress.mangaSlug)
    ensures Keyed.IsSubsequence(r[1..], history)
  {
    var filtered := Keyed.Without(history, MangaSlug, progress.mangaSlug);
    var kept := Take(filtered, MaxHistoryItems - 1);
    TakeCons(progress, filtered, MaxHistoryItems - 1);
    KeptAfterSave(history, progress);
    assert ([progress] + kept)[1..] == kept;
    Take([progress] + filtered, MaxHistoryItems)
  }

  /** The entries a save keeps behind the new one: old entries of other
      manga, in their old order. */
  lemma KeptAfterSave(history: seq<ReadingProgress>, progress: ReadingProgress)
    ensures var kept := Take(Keyed.Without(history, MangaSlug, progress.mangaSlug), MaxHistoryItems - 1);
            && !Keyed.Contains(kept, MangaSlug, progress.mangaSlug)
            && Keyed.IsSubsequence(kept, history)
            && Keyed.CountKey([progress] + kept, MangaSlug, progress.mangaSlug) == 1
  {
    var filtered := Keyed.Without(history, MangaSlug, progress.mangaSlug);
    var kept := Take(filtered, MaxHistoryItems - 1);
    Keyed.PrefixIsSubsequence(filtered, |kept|);
    Keyed.SubsequenceTransitive(kept, filtered, history);
    Keyed.CountKeyConcat([progress], kept, MangaSlug, progress.mangaSlug);
    assert [progress][..0] == [];
  }

  /** A save is the new entry followed by the first `MaxHistoryItems - 1`
      old entries of other manga. */
  lemma SaveForm(history: seq<ReadingProgress>, progress: ReadingProgress)
    ensures SaveReadingProgress(history, progress)
              == [progress] + Take(Keyed.Without(history, MangaSlug, progress.mangaSlug), MaxHistoryItems - 1)
  {
    TakeCons(progress, Keyed.Without(history, MangaSlug, progress.mangaSlug), MaxHistoryItems - 1);
  }

  /** Drops every entry for `mangaSlug`, keeping the others in order. */
  function RemoveFromHistory(history: seq<ReadingProgress>, mangaSlug: string): (r: seq<ReadingProgress>)
    ensures !Keyed.Contains(r, MangaSlug, mangaSlug)
    ensures forall other :: other != mangaSlug ==>
              (Keyed.Contains(r, MangaSlug, other) <==> Keyed.Contains(history, MangaSlug, other))
    ensures |r| == |history| - Keyed.CountKey(history, MangaSlug, mangaSlug)
    ensures Keyed.IsSubsequence(r, history)
  {
    Keyed.WithoutKeepsOthers(history, MangaSlug, mangaSlug);
    Keyed.Without(history, MangaSlug, mangaSlug)
  }

  /** Empties the history by deleting its storage entry. */
  function ClearReadingHistory(): (s: Storage.Stored<ReadingProgress>)
    ensures Storage.Read(s) == []
  {
    Storage.Remove()
  }

  /** The saved progress of one manga: the first entry with its slug. */
  function GetMangaProgress(history: seq<ReadingProgress>, mangaSlug: string): (r: Option<ReadingProgress>)
    ensures r.None? <==> forall i :: 0 <= i < |history| ==> history[i].mangaSlug != mangaSlug
    ensures r.Some? ==> r.value.mangaSlug == mangaSlug
    ensures r.Some? ==> exists i :: 0 <= i < |history| && history[i] == r.value
                                  && forall j :: 0 <= j < i ==> history[j].mangaSlug != mangaSlug
  {
    Keyed.FindFirst(history, MangaSlug, mangaSlug)
  }

  /** No two entries share a manga slug. */
  ghost predicate UniqueSlugs(history: seq<ReadingProgress>) {
    Keyed.DistinctKeys(history, MangaSlug)
  }

  /** Saves each entry of `saves` in turn. */
  function SaveAll(history: seq<ReadingProgress>, saves: seq<ReadingProgress>): seq<ReadingProgress>
  {
    if |saves| == 0 then history
    else SaveReadingProgress(SaveAll(history, saves[..|saves| - 1]), saves[|saves| - 1])
  }

  // ---------------------------------------------------------------------
  // Laws

  /** Saving a manga that is not in the history prepends it, and when the
      history was full the oldest entry falls off. */
  lemma SaveFresh(history: seq<ReadingProgress>, progress: ReadingProgress)
    requires !Keyed.Contains(history, MangaSlug, progress.mangaSlug)
    ensures SaveReadingProgress(history, progress) == [progress] + Take(history, MaxHistoryItems - 1)
  {
    Keyed.WithoutAbsent(history, MangaSlug, progress.mangaSlug);
    TakeCons(progress, history, MaxHistoryItems - 1);
  }

  /** Saving twice for the same manga equals saving the second value once. */
  lemma {:induction false} SaveUpsert(history: seq<ReadingProgress>, first: ReadingProgress, second: ReadingProgress)
    requires first.mangaSlug == second.mangaSlug
    ensures SaveReadingProgress(SaveReadingProgress(history, first), second)
              == SaveReadingProgress(history, second)
  {
    var k := first.mangaSlug;
    var filtered := Keyed.Without(history, MangaSlug, k);
    var kept := Take(filtered, MaxHistoryItems - 1);
    var once := SaveReadingProgress(history, first);
    SaveForm(history, first);
    KeptAfterSave(history, first);
    calc {
      SaveReadingProgress(once, second);
      { SaveForm(once, second); }
      [second] + Take(Keyed.Without([first] + kept, MangaSlug, k), MaxHistoryItems - 1);
      { Keyed.WithoutConcat([first], kept, MangaSlug, k);
        Keyed.WithoutSingleton(first, MangaSlug, k);
        Keyed.WithoutAbsent(kept, MangaSlug, k);
        assert [] + kept == kept; }
      [second] + Take(kept, MaxHistoryItems - 1);
      { TakeTake(filtered, MaxHistoryItems - 1, MaxHistoryItems - 1); }
      [second] + kept;
      { SaveForm(history, second); }
      SaveReadingProgress(history, second);
    }
  }

  /** A save keeps manga slugs unique. */
  lemma {:induction false} SaveUnique(history: seq<ReadingProgress>, progress: ReadingProgress)
    requires UniqueSlugs(history)
    ensures UniqueSlugs(SaveReadingProgress(history, progress))
  {
    var filtered := Keyed.Without(history, MangaSlug, progress.mangaSlug);
    var kept := Take(filtered, MaxHistoryItems - 1);
    Keyed.WithoutDistinct(history, MangaSlug, progress.mangaSlug);
    assert Keyed.DistinctKeys(kept, MangaSlug);
    KeptAfterSave(history, progress);
    Keyed.DistinctCons(progress, kept, MangaSlug);
    SaveForm(history, progress);
  }

  /** After a save, the manga's progress reads back as the saved value. */
  lemma GetAfterSave(history: seq<ReadingProgress>, progress: ReadingProgress)
    ensures GetMangaProgress(SaveReadingProgress(history, progress), progress.mangaSlug) == Some(progress)
  {
  }

  /** A save changes no other manga's progress, unless it evicts it. */
  lemma {:induction false} GetOtherAfterSave(history: seq<ReadingProgress>, progress: ReadingProgress, mangaSlug: string)
    requires mangaSlug != progress.mangaSlug
    ensures var after := GetMangaProgress(SaveReadingProgress(history, progress), mangaSlug);
            after == GetMangaProgress(history, mangaSlug) || after.None?
  {
    var k := progress.mangaSlug;
    var filtered := Keyed.Without(history, MangaSlug, k);
    var kept := Take(filtered, MaxHistoryItems - 1);
    SaveForm(history, progress);
    Keyed.FindFirstWithoutOther(history, MangaSlug, k, mangaSlug);
    Keyed.FindFirstPrefix(filtered, |kept|, MangaSlug, mangaSlug);
    Keyed.FindFirstConsOther(progress, kept, MangaSlug, mangaSlug);
  }

  /** A save leaves another manga's progress exactly as it was when that
      manga is not evicted: it has no entry, or its first entry among the
      old entries of other manga is within the `MaxHistoryItems - 1` kept. */
  lemma GetOtherAfterSaveKept(history: seq<ReadingProgress>, progress: ReadingProgress, mangaSlug: string)
    requires mangaSlug != progress.mangaSlug
    requires || !Keyed.Contains(history, MangaSlug, mangaSlug)
             || Keyed.IndexOfKey(Keyed.Without(history, MangaSlug, progress.mangaSlug), MangaSlug, mangaSlug)
                  < MaxHistoryItems - 1
    ensures GetMangaProgress(SaveReadingProgress(history, progress), mangaSlug) == GetMangaProgress(history, mangaSlug)
  {
    var k := progress.mangaSlug;
    var filtered := Keyed.Without(history, MangaSlug, k);
    var kept := Take(filtered, MaxHistoryItems - 1);
    SaveForm(history, progress);
    Keyed.FindFirstWithoutOther(history, MangaSlug, k, mangaSlug);
    Keyed.FindFirstConsOther(progress, kept, MangaSlug, mangaSlug);
    if !Keyed.Contains(history, MangaSlug, mangaSlug) {
      GetOtherAfterSave(history, progress, mangaSlug);
    } else if |filtered| <= MaxHistoryItems - 1 {
      assert kept == filtered;
    } else {
      Keyed.FindFirstWithinPrefix(filtered, MaxHistoryItems - 1, MangaSlug, mangaSlug);
    }
  }

  /** After removal, the manga has no progress. */
  lemma GetAfterRemove(history: seq<ReadingProgress>, mangaSlug: string)
    ensures GetMangaProgress(RemoveFromHistory(history, mangaSlug), mangaSlug) == None
  {
  }

  /** With distinct slugs, the latest save is not among the earlier ones,
      however they were cut. */
  lemma LatestIsFresh(saves: seq<ReadingProgress>, n: nat)
    requires UniqueSlugs(saves) && |saves| > 0
    ensures !Keyed.Contains(Take(Reverse(saves[..|saves| - 1]), n), MangaSlug, saves[|saves| - 1].mangaSlug)
  {
    var init := saves[..|saves| - 1];
    var before := Take(Reverse(init), n);
    forall i | 0 <= i < |before|
      ensures before[i].mangaSlug != saves[|saves| - 1].mangaSlug
    {
      assert before[i] == init[|init| - 1 - i];
    }
  }

  /** Saving distinct manga one after another into an empty history keeps
      the most recent `MaxHistoryItems` of them, newest first. */
  lemma {:induction false} SaveAllDistinct(saves: seq<ReadingProgress>)
    requires UniqueSlugs(saves)
    ensures SaveAll([], saves) == Take(Reverse(saves), MaxHistoryItems)
  {
    if |saves| > 0 {
      var init, last := saves[..|saves| - 1], saves[|saves| - 1];
      assert UniqueSlugs(init);
      SaveAllDistinct(init);
      var before := Take(Reverse(init), MaxHistoryItems);
      LatestIsFresh(saves, MaxHistoryItems);
      calc {
        SaveAll([], saves);
        SaveReadingProgress(before, last);
        { SaveFresh(before, last); }
        [last] + Take(before, MaxHistoryItems - 1);
        { TakeTake(Reverse(init), MaxHistoryItems, MaxHistoryItems - 1); }
        [last] + Take(Reverse(init), MaxHistoryItems - 1);
        { TakeCons(last, Reverse(init), MaxHistoryItems - 1); }
        Take([last] + Reverse(init), MaxHistoryItems);
        Take(Reverse(saves), MaxHistoryItems);
      }
    }
  }

  /** Saving more distinct manga than the cap leaves exactly `MaxHistoryItems`
      entries, and the earliest saved are the ones evicted. */
  lemma {:induction false} SaveAllEvictsOldest(saves: seq<ReadingProgress>)
    requires UniqueSlugs(saves) && |saves| > MaxHistoryItems
    ensures |SaveAll([], saves)| == MaxHistoryItems
    ensures forall i :: 0 <= i < |saves| - MaxHistoryItems ==>
              !Keyed.Contains(SaveAll([], saves), MangaSlug, saves[i].mangaSlug)
  {
    SaveAllDistinct(saves);
    var kept := SaveAll([], saves);
    var rev := Reverse(saves);
    assert kept == rev[..MaxHistoryItems];
    forall i | 0 <= i < |saves| - MaxHistoryItems
      ensures !Keyed.Contains(kept, MangaSlug, saves[i].mangaSlug)
    {
      forall j | 0 <= j < |kept|
        ensures kept[j].mangaSlug != saves[i].mangaSlug
      {
        assert kept[j] == rev[j] == saves[|saves| - 1 - j];
      }
    }
  }
}

=== FILE: relative_time.dfy ===
/** The "time ago" label of a reading-history entry. The clock is a
    parameter: `now` is the current time in milliseconds. */
module RelativeTime {
  import opened Options
  import Decimal

  const MinuteMs: nat := 60000
  const HourMs: nat := 3600000
  const DayMs: nat := 86400000

  /** The bucket an elapsed time falls into. `CalendarDate` stands for the
      locale-formatted date shown for entries a week old or older. */
  datatype Elapsed =
    | JustNow
    | MinutesAgo(minutes: nat)
    | HoursAgo(hours: nat)
    | DaysAgo(days: nat)
    | CalendarDate(timestamp: int)

  /** Buckets `now - timestamp` by whole minutes, hours and days, each
      rounded down. */
  function FormatRelativeTime(timestamp: int, now: int): (r: Elapsed)
    ensures r.JustNow? <==> now - timestamp < MinuteMs
    ensures r.MinutesAgo? <==> MinuteMs <= now - timestamp < HourMs
    ensures r.HoursAgo? <==> HourMs <= now - timestamp < DayMs
    ensures r.DaysAgo? <==> DayMs <= now - timestamp < 7 * DayMs
    ensures r.CalendarDate? <==> 7 * DayMs <= now - timestamp
    ensures r.MinutesAgo? ==> 1 <= r.minutes < 60
    ensures r.MinutesAgo? ==> r.minutes * MinuteMs <= now - timestamp < (r.minutes + 1) * MinuteMs
    ensures r.HoursAgo? ==> 1 <= r.hours < 24
    ensures r.HoursAgo? ==> r.hours * HourMs <= now - timestamp < (r.hours + 1) * HourMs
    ensures r.DaysAgo? ==> 1 <= r.days < 7
    ensures r.DaysAgo? ==> r.days * DayMs <= now - timestamp < (r.days + 1) * DayMs
    ensures r.CalendarDate? ==> r.timestamp == timestamp
  {
    var diff := now - timestamp;
    var minutes := diff / MinuteMs;
    var hours := diff / HourMs;
    var days := diff / DayMs;
    if minutes < 1 then JustNow
    else if minutes < 60 then MinutesAgo(minutes)
    else if hours < 24 then HoursAgo(hours)
    else if days < 7 then DaysAgo(days)
    else CalendarDate(timestamp)
  }

  /** The Indonesian label of a bucket; the calendar date depends on the
      locale and has no text here. */
  function Label(e: Elapsed): (r: Option<string>)
    ensures r.None? <==> e.CalendarDate?
  {
    match e
    case JustNow => Some("Baru saja")
    case MinutesAgo(m) => Some(Decimal.Show(m) + " menit lalu")
    case HoursAgo(h) => Some(Decimal.Show(h) + " jam lalu")
    case DaysAgo(d) => Some(Decimal.Show(d) + " hari lalu")
    case CalendarDate(_) => None
  }

  /** Reads a label back into its bucket: the leading digits are the count
      and the rest names the unit. */
  function ParseLabel(s: string): Option<Elapsed>
  {
    if s == "Baru saja" then Some(JustNow)
    else
      var n := Decimal.DigitRun(s);
      var count := Decimal.Parse(s[..n]);
      if n == 0 || (n > 1 && s[0] == '0') then None
      else if s[n..] == " menit lalu" then Some(MinutesAgo(count))
      else if s[n..] == " jam lalu" then Some(HoursAgo(count))
      else if s[n..] == " hari lalu" then Some(DaysAgo(count))
      else None
  }

  /** A count followed by a unit splits back into the two. */
  lemma SplitCount(m: nat, unit: string)
    requires |unit| > 0 && unit[0] == ' '
    ensures var s := Decimal.Show(m) + unit;
            var n := Decimal.DigitRun(s);
            n > 0 && s[..n] == Decimal.Show(m) && s[n..] == unit
  {
    var digits := Decimal.Show(m);
    Decimal.DigitRunOfPrefix(digits, unit);
    assert (digits + unit)[..|digits|] == digits;
    assert (digits + unit)[|digits|..] == unit;
  }

  /** Every label reads back as the bucket it was made from. */
  lemma ParseLabelRoundTrip(e: Elapsed)
    requires !e.CalendarDate?
    ensures ParseLabel(Label(e).value) == Some(e)
  {
    match e
    case JustNow =>
    case MinutesAgo(m) =>
      SplitCount(m, " menit lalu");
      Decimal.ParseShow(m);
      assert Label(e).value[0] != 'B';
    case HoursAgo(h) =>
      SplitCount(h, " jam lalu");
      Decimal.ParseShow(h);
      assert Label(e).value[0] != 'B';
    case DaysAgo(d) =>
      SplitCount(d, " hari lalu");
      Decimal.ParseShow(d);
      assert Label(e).value[0] != 'B';
  }

  /** Every text that reads as a bucket is that bucket's label, so the
      labels are exactly the texts `ParseLabel` accepts, digit for digit. */
  lemma ParseLabelExact(s: string)
    requires ParseLabel(s).Some?
    ensures Label(ParseLabel(s).value) == Some(s)
  {
    if s != "Baru saja" {
      var n := Decimal.DigitRun(s);
      Decimal.ShowParse(s[..n]);
      assert s == s[..n] + s[n..];
    }
  }

  /** Distinct buckets never share a label. */
  lemma LabelUnambiguous(e: Elapsed, f: Elapsed)
    requires Label(e).Some? && Label(e) == Label(f)
    ensures e == f
  {
    ParseLabelRoundTrip(e);
    ParseLabelRoundTrip(f);
  }
}

=== FILE: seqs.dfy ===
/** Generic list helpers: the `slice` and reversal the stores use, and two
    sequence facts that larger proofs cite. */
module Seqs {

  function Min(a: int, b: int): int { if a <= b then a else b }

  /** The `slice(0, n)` of a list. */
  function Take<T>(xs: seq<T>, n: nat): (r: seq<T>)
    ensures |r| == Min(n, |xs|)
    ensures r == xs[..|r|]
  {
    if |xs| <= n then xs else xs[..n]
  }

  /** Cutting a list with one more element in front keeps that element. */
  lemma TakeCons<T>(x: T, xs: seq<T>, n: nat)
    ensures Take([x] + xs, n + 1) == [x] + Take(xs, n)
  {
    if |xs| > n {
      assert ([x] + xs)[..n + 1] == [x] + xs[..n];
    }
  }

  /** Cutting twice cuts at the smaller bound. */
  lemma TakeTake<T>(xs: seq<T>, n: nat, m: nat)
    requires m <= n
    ensures Take(Take(xs, n), m) == Take(xs, m)
  {
  }

  /** The list read back-to-front. */
  function Reverse<T>(xs: seq<T>): (r: seq<T>)
    ensures |r| == |xs|
    ensures forall i :: 0 <= i < |xs| ==> r[i] == xs[|xs| - 1 - i]
  {
    if |xs| == 0 then [] else [xs[|xs| - 1]] + Reverse(xs[..|xs| - 1])
  }

  /** Regrouping a concatenation. */
  lemma ConcatAssociative<T>(a: seq<T>, b: seq<T>, c: seq<T>)
    ensures (a + b) + c == a + (b + c)
  {
  }

  /** A prefix one longer ends in the next element. */
  lemma PrefixSnoc<T>(xs: seq<T>, i: nat)
    requires i < |xs|
    ensures xs[..i + 1] == xs[..i] + [xs[i]]
  {
  }
}

=== FILE: storage.dfy ===
/** The browser's local storage slot that holds one JSON-encoded list.
    Reading never fails: whatever cannot be decoded reads as the empty
    list. Every mutating operation rewrites the whole list. */
module Storage {

  /** What a read of the slot can meet: no entry, an empty string, text that
      does not parse, or a parsed list. */
  datatype Stored<T> = Absent | Blank | Corrupt | Json(items: seq<T>)

  /** The stored list, with every unreadable state defaulting to `[]`. */
  function Read<T>(s: Stored<T>): (r: seq<T>)
    ensures !s.Json? ==> r == []
    ensures s.Json? ==> r == s.items
  {
    match s
    case Json(items) => items
    case _ => []
  }

  /** Serialising a list into the slot. */
  function Write<T>(xs: seq<T>): (s: Stored<T>)
    ensures Read(s) == xs
  {
    Json(xs)
  }

  /** Removing the entry from the slot. */
  function Remove<T>(): (s: Stored<T>)
    ensures Read(s) == []
  {
    Absent
  }
}
